=== FILE: README.md ===
# fusion-core: decision rules of the Avada core plugin, in Dafny

The fusion-core WordPress plugin is mostly registration glue. A few of its
functions are self-contained rules over PHP ordered arrays, the theme's
settings and the WordPress options store. Once WordPress's globals are passed
in as parameters, each of them can be stated exactly. This project models
those rules and proves what they promise.

- **PHP arrays** (`php_arrays.dfy`, module `PhpArrays`). An ordered array is a
  sequence of key/value pairs with integer or string keys. The module models
  reading, assignment (overwrite in place or append), `unset`, strict
  `array_search` and `array_merge` (integer keys renumbered, string keys
  overwritten in place). It also models PHP truthiness for keys and scalars.
- **Theme settings** (`settings.dfy`, module `ThemeSettings`). `Fusion_Settings::get`
  becomes a map from setting name to string. A name the map lacks reads as "".
- **Builder dependency resolver** (`dependencies.dfy`, module
  `BuilderDependencies`). This covers `set_builder_dependencies`: the 16-rule
  table for the portfolio and FAQ elements, and the loop that appends the
  output of every rule whose check passes.
- **Options store** (`options.dfy`, module `PluginOptions`). This covers:
  - the upgrade check `versions_compare`;
  - the permalink-flush latch at the end of `register_post_types`;
  - the elastic-slider gate of `register_post_types`;
  - the deactivation hook.

  It also models consecutive requests, to show that the rules are flushed
  at most once.
- **Array filters** (`filters.dfy`, module `PostTypeFilters`). This covers
  `fusion_core_exclude_post_type`, `fusion_wp_list_add_column` and
  `fusion_core_wp_link_query_args`. The last one is modelled both as written
  and as evidently intended (see Findings).
- **Builder descriptions** (`descriptions.dfy`, module `BuilderDescriptions`).
  `map_builder_descriptions` is modelled as the 34 nested writes it makes.
- **Single portfolio template** (`templates.dfy`, module `Templates`).
  `portfolio_single_template` prefers the theme's template, then the plugin's
  copy, then the template WordPress chose. What `locate_template` returns and
  which files exist are parameters.

## Model

| member | source | states |
|---|---|---|
| PhpArrays.Get | wp-content/plugins/fusion-core/fusion-core.php:825-828 | reading `$a[$k]` finds an entry exactly when the key is present, and with unique keys it is the value stored at that key; the nested description writes and `Index` at line 1132 read through it |
| PhpArrays.Index | wp-content/plugins/fusion-core/fusion-core.php:1132 | reading `$existing_columns['cb']` yields null when the column is absent and otherwise the stored value |
| PhpArrays.ArraySearch | wp-content/plugins/fusion-core/fusion-core.php:1232 | strict `array_search` finds nothing exactly when no entry holds the value, and otherwise returns the key of the first entry holding it |
| PhpArrays.Without | wp-content/plugins/fusion-core/fusion-core.php:581-582 | removing a set of keys keeps exactly the entries whose key is outside the set, drops the set from the key set, and keeps keys unique |
| PhpArrays.Unset | wp-content/plugins/fusion-core/fusion-core.php:581-582 | `unset( $a[$k] )` is `Without` for the one key; `UnsetSplices` states that it splices out exactly that key's entry |
| PhpArrays.UnsetSplices | wp-content/plugins/fusion-core/fusion-core.php:581-582 | `unset` on a unique-keyed array splices out exactly the entry holding the key; a missing key leaves the array unchanged |
| PhpArrays.Assign | wp-content/plugins/fusion-core/fusion-core.php:825-828 | `$a[$k] = $v` makes `$k` read `$v`, leaves every other key's value alone, keeps existing keys in place, and appends only a new key |
| PhpArrays.ArrayMergeStringKeys | wp-content/plugins/fusion-core/fusion-core.php:1136 | `array_merge` of string-keyed arrays keeps the first array's keys in place with the second array's values where it has them, then appends the second array's new entries in order |
| PhpArrays.ArrayMerge | wp-content/plugins/fusion-core/fusion-core.php:1136 | `array_merge( $a, $b )`: integer keys renumbered, string keys overwritten in place; `ArrayMergeStringKeys` states the layout for string-keyed arrays |
| BuilderDependencies.Table | wp-content/plugins/fusion-core/fusion-core.php:603-791 | the 16 rules of `$shortcode_option_map`, portfolio lines then FAQ lines, in source order; `MatchingIndices` and `SelectFollowsMatchingEntries` state how a pair's rules are drawn from it |
| BuilderDependencies.Select | wp-content/plugins/fusion-core/fusion-core.php:794-795 | the rules looked up for a pair all come from table lines for that pair, no more of them than lines; a pair the table lacks has no rules |
| BuilderDependencies.MatchingIndices | wp-content/plugins/fusion-core/fusion-core.php:603-791 | lists, in increasing order, exactly the positions of the table lines written for the pair |
| BuilderDependencies.SelectFollowsMatchingEntries | wp-content/plugins/fusion-core/fusion-core.php:603-795 | every table line for the pair contributes its rule and no other line does: the t-th rule looked up is the rule of the t-th line for the pair, in table order |
| BuilderDependencies.Triggered | wp-content/plugins/fusion-core/fusion-core.php:795-810 | each appended record is the output of a rule whose check passes, and there are no more of them than rules |
| BuilderDependencies.PassingIndices | wp-content/plugins/fusion-core/fusion-core.php:795-810 | lists, in increasing order, exactly the positions of the rules whose check passes |
| BuilderDependencies.Passes | wp-content/plugins/fusion-core/fusion-core.php:796-805 | a check passes iff the setting equals the value for `==`, or differs from it for `!=`; `TriggeredFollowsPassingRules` states how passing checks select the appended records |
| BuilderDependencies.TriggeredFollowsPassingRules | wp-content/plugins/fusion-core/fusion-core.php:795-810 | a record is appended iff its rule's check passes, and the t-th appended record is the output of the t-th passing rule |
| BuilderDependencies.AppendPassing | wp-content/plugins/fusion-core/fusion-core.php:795-811 | the foreach loop only appends, and what it appends is the outputs of the passing rules in table order |
| BuilderDependencies.SetBuilderDependencies | wp-content/plugins/fusion-core/fusion-core.php:596-814 | the incoming list is a prefix of the result, a pair without rules returns the input unchanged, and otherwise the passing rules' outputs follow in order |
| BuilderDependencies.ExcerptLengthDependencies | wp-content/plugins/fusion-core/fusion-core.php:681-704 | portfolio `excerpt_length` gets two `content_length` records for "full_content", none for "excerpt" and one for any other value |
| PluginOptions.VersionsCompare | wp-content/plugins/fusion-core/fusion-core.php:551-569 | afterwards the stored version is `FUSION_CORE_VERSION`; the activation steps run iff the stored version differed; an upgrade deletes the flush flag; no other option changes |
| PluginOptions.VersionsCompareIdempotent | wp-content/plugins/fusion-core/fusion-core.php:553-568 | a second `versions_compare` finds the version current and changes nothing |
| PluginOptions.FlushLatch | wp-content/plugins/fusion-core/fusion-core.php:494-498 | rules are flushed iff the flag is falsy or missing, the flag is truthy afterwards, and nothing else changes |
| PluginOptions.FlushLatchOnce | wp-content/plugins/fusion-core/fusion-core.php:494-498 | a repeated latch never flushes again and leaves the store as it was |
| PluginOptions.Deactivate | wp-content/plugins/fusion-core/fusion-core.php:1067-1073 | deactivation clears the flush flag and leaves every other option alone |
| PluginOptions.DeactivateRearms | wp-content/plugins/fusion-core/fusion-core.php:1072 | after deactivation the next latch flushes |
| PluginOptions.UpgradeRearms | wp-content/plugins/fusion-core/fusion-core.php:558 | after an upgrade the next latch flushes |
| PluginOptions.RegisterPostTypes | wp-content/plugins/fusion-core/fusion-core.php:286-498 | portfolio and FAQ are registered first, always, with their four taxonomies in order; the elastic slider and its groups iff the settings class is absent or `status_eslider` is not "0"; each is registered exactly once and nothing else is; then the flush latch |
| PluginOptions.SettledRequests | wp-content/plugins/fusion-core/fusion-core.php:494-498 | once the version is current and the flag set, any number of requests change nothing and never flush |
| PluginOptions.FlushAtMostOnce | wp-content/plugins/fusion-core/fusion-core.php:494-498 | across any run of requests the rules are flushed exactly once if the store started stale or unlatched, otherwise never, and the store ends settled |
| PostTypeFilters.ExcludePostTypes | wp-content/plugins/fusion-core/fusion-core.php:579-585 | the result has exactly the input's keys minus `slide` and `themefusion_elastic`, each kept entry unchanged, and no entry is invented |
| PostTypeFilters.ExcludePostTypesFilters | wp-content/plugins/fusion-core/fusion-core.php:581-582 | the two unsets together remove exactly the two keys in one order-preserving pass |
| PostTypeFilters.ExcludePostTypesSplices | wp-content/plugins/fusion-core/fusion-core.php:581-582 | each unset splices out only its own key's entry, so every other entry keeps its relative order |
| PostTypeFilters.AddThumbnailColumn | wp-content/plugins/fusion-core/fusion-core.php:1127-1130 | without the theme the columns come back unchanged |
| PostTypeFilters.AddThumbnailColumnLayout | wp-content/plugins/fusion-core/fusion-core.php:1132-1136 | with the theme, `cb` comes first with its existing value, `tf_thumbnail` second, then the other existing columns in their original order |
| PostTypeFilters.AddThumbnailColumnKeepsColumns | wp-content/plugins/fusion-core/fusion-core.php:1132-1136 | with the theme, every existing column keeps its value, only `cb` and `tf_thumbnail` are added, and no key appears twice |
| PostTypeFilters.RemoveIfTruthyKey | wp-content/plugins/fusion-core/fusion-core.php:1232-1237 | one `array_search` and truthy-key `unset` step, as written; `RemoveIfTruthyKeySpec` states its behaviour |
| PostTypeFilters.LinkQueryPostTypes | wp-content/plugins/fusion-core/fusion-core.php:1229-1249 | `fusion_core_wp_link_query_args` as written, two `RemoveIfTruthyKey` steps; `LinkQueryKeepsSlideAtKeyZero` and `LinkQuerySlideAtZeroCounterexample` state where it falls short |
| PostTypeFilters.RemoveIfTruthyKeySpec | wp-content/plugins/fusion-core/fusion-core.php:1232-1237 | one search-and-unset removes the first entry holding the value iff its key is truthy, and otherwise leaves the list unchanged |
| PostTypeFilters.LinkQueryKeepsSlideAtKeyZero | wp-content/plugins/fusion-core/fusion-core.php:1232-1245 | as written, a `slide` entry found at key 0 survives the filter |
| PostTypeFilters.LinkQuerySlideAtZeroCounterexample | wp-content/plugins/fusion-core/fusion-core.php:1232-1237 | as written, the list `[0 => 'slide', 1 => 'post']` keeps `slide` |
| PostTypeFilters.RemoveFoundSpec | wp-content/plugins/fusion-core/fusion-core.php:1232-1237 | the corrected step removes the entry holding the value, keeps every other entry, and keeps keys and values distinct |
| PostTypeFilters.LinkQueryIntendedRemovesBoth | wp-content/plugins/fusion-core/fusion-core.php:1232-1245 | the corrected filter removes `slide` and `themefusion_elastic` at any key and keeps every other entry |
| BuilderDescriptions.Writes | wp-content/plugins/fusion-core/fusion-core.php:825-961 | the 34 `$shortcode_option_map[ option ][ shortcode ] = …` writes in source order; `TitleFontSizeDescription` checks one of them against the map the writes build |
| BuilderDescriptions.SetNested | wp-content/plugins/fusion-core/fusion-core.php:825-828 | one nested write makes the pair read the new description, leaves every other pair alone, keeps the existing options in place, and adds no option key but the one it names |
| BuilderDescriptions.LastWrite | wp-content/plugins/fusion-core/fusion-core.php:825-961 | a pair has a last write iff some write names it, and then that write stores it |
| BuilderDescriptions.ApplyWritesLookup | wp-content/plugins/fusion-core/fusion-core.php:825-961 | after a run of writes a pair holds the last description written for it, or its old value if no write names it |
| BuilderDescriptions.MapBuilderDescriptions | wp-content/plugins/fusion-core/fusion-core.php:822-964 | `map_builder_descriptions` folds `Writes` over the incoming map; `MapBuilderDescriptionsSpec` states what the result holds |
| BuilderDescriptions.ApplyWritesKeySet | wp-content/plugins/fusion-core/fusion-core.php:825-961 | after a run of writes the options are the incoming ones plus exactly those the writes name |
| BuilderDescriptions.MapBuilderDescriptionsSpec | wp-content/plugins/fusion-core/fusion-core.php:822-964 | every pair the plugin writes reads the description written for it, every other pair of the incoming map is unchanged, and the incoming options keep their positions without being duplicated |
| BuilderDescriptions.MapBuilderDescriptionsOptions | wp-content/plugins/fusion-core/fusion-core.php:822-964 | `map_builder_descriptions` creates no option beyond those its 34 writes name |
| BuilderDescriptions.TitleFontSizeDescription | wp-content/plugins/fusion-core/fusion-core.php:935-937 | the FAQ `title_font_size` parameter mirrors `faq_accordion_title_font_size` and carries no type or reset key |
| Templates.PortfolioSingleTemplate | wp-content/plugins/fusion-core/fusion-core.php:519-543 | a non-portfolio post keeps its template; otherwise the theme's template wins when `locate_template` is truthy, then the plugin's copy if it exists, then the incoming template |
| Templates.TemplateCandidates | wp-content/plugins/fusion-core/fusion-core.php:519-543 | the chosen template is the incoming one, the theme's, or an existing plugin copy, it changes only for portfolio posts, and a template the filter supplies itself is `single-avada_portfolio.php` under the plugin's `templates` directory |
| Templates.TemplateIdempotent | wp-content/plugins/fusion-core/fusion-core.php:519-543 | running the filter on its own result changes nothing |

## Left out

- Registration payloads are left out: post-type and taxonomy arguments and labels, image sizes, the admin menu, thumbnail column rendering, and script and style enqueueing. They are declarative calls into WordPress with no behaviour of their own. `RegisterPostTypes` records only which post types and taxonomies are registered.
- `fusion_core_cached_query`, `get_fusion_sliders` and `scripts_dynamic_css` are left out. They wrap `WP_Query`, the object cache, `get_terms` and the filesystem.
- The regular expression of `fusion_remove_orphan_shortcodes` is left out. It depends on PCRE look-ahead and on time-based placeholders.
- Hook registration, the singleton accessor, activation, and the patcher reset in the deactivation hook are left out. They are lifecycle wiring only.
- `VersionsCompare` does not model the cache reset (`Fusion_Cache::reset_all_caches`) or `fusion_core_enable_elements`. They call code outside this plugin, and the `upgraded` flag reports when they run.
- `PluginOptions.VersionsCompare` and `PluginOptions.FlushLatch` state that no other option changes only for the plugin's own option writes. `flush_rewrite_rules` and `fusion_core_enable_elements` run code outside the plugin that may write further options.
- `BuilderDependencies.SetBuilderDependencies` takes the settings as a map that always exists. The source calls `Fusion_Settings::get_instance()` unguarded when the global is unset, which is a fatal error when that class is missing; that error is not modelled. The incoming `$dependencies` is modelled as a list, so its keys are not kept: `$dependencies[] = …` appends under the next integer key, and the model only appends in order.
- `BuilderDependencies.Passes` compares settings as strings. PHP's loose `==` and `!=` also equate numeric strings such as "1" and "01", and that coercion is not modelled.
- `ThemeSettings.Setting` reads a missing setting as "". PHP yields null there, which compares loosely like "" against every value in the rule table.
- `PostTypeFilters.AddThumbnailColumnLayout` requires a string-keyed column list, as list-table columns always are; a list with integer keys, which `array_merge` would renumber, is not covered.
- `PostTypeFilters.AddThumbnailColumnKeepsColumns` requires a string-keyed column list for the same reason.
- `PhpArrays.ArrayMergeStringKeys` is proved for string-keyed arrays only. The list-table columns it is used for are string keyed; integer keys are renumbered in the model but not covered by a lemma.
- `PhpArrays.KeyTruthy` treats the string key "0" as falsy. PHP stores that key as the integer 0, and the model does not normalise it.
- `PostTypeFilters.LinkQueryPostTypes` works on the query's `post_type` list directly. It assumes that entry is present and is an array, as WordPress always passes it.
- `Templates.PortfolioSingleTemplate` receives what `locate_template` returns and a file-existence predicate. It does not model how WordPress searches theme directories.
- `PluginOptions.RegisterPostTypes` takes whether the `Fusion_Settings` class exists as a parameter. It does not distinguish the already-initialised global settings object from a fresh instance, since both read the same setting.

## Findings

| source | as written | input that shows it | evidently intended | confidence | as-written member | corrected member |
|---|---|---|---|---|---|---|
| wp-content/plugins/fusion-core/fusion-core.php:1232-1245 | `if ( $slide_post_type_key )` tests the key `array_search` found for truthiness, so a match at key 0 is never unset | `post_type` = `[0 => 'slide', 1 => 'post']`: `slide` is found at key 0 and stays in the query | `false !== $key`: remove the entry wherever it is found | not executed | PostTypeFilters.LinkQuerySlideAtZeroCounterexample | PostTypeFilters.LinkQueryIntendedRemovesBoth |

=== FILE: dependencies.dfy ===
/**
 The builder dependency resolver (`set_builder_dependencies`).

 A static table maps an (option, shortcode) pair of a builder element to a
 list of rules. Each rule checks one global theme setting against a value,
 with `==` or `!=`, and carries an output record. Resolving a pair appends, in
 table order, the output of every rule whose check passes to the dependency
 list the builder passed in.
 */
module BuilderDependencies {
  import opened ThemeSettings
  import opened Shortcodes

  datatype Operator = Equal | NotEqual

  /** `'check' => array( 'element-global' => …, 'value' => …, 'operator' => … )` */
  datatype Check = Check(setting: string, value: string, op: Operator)

  /** `'output' => array( 'element' => …, 'value' => …, 'operator' => … )` */
  datatype Output = Output(element: string, value: string, op: Operator)

  datatype Rule = Rule(check: Check, output: Output)

  /** One `$shortcode_option_map[ option ][ shortcode ][] = rule` line of the table. */
  datatype Entry = Entry(option: string, shortcode: string, rule: Rule)

  /** Shared by `column_spacing` and `equal_heights`. */
  const PortfolioIsSingleColumn :=
    Rule(Check("portfolio_columns", "1", Equal), Output("columns", "", NotEqual))

  function TextLayoutRule(value: string, op: Operator): Rule {
    Rule(Check("portfolio_text_layout", value, op), Output("text_layout", "default", NotEqual))
  }

  function ContentLengthRule(value: string, op: Operator): Rule {
    Rule(Check("portfolio_content_length", value, op), Output("content_length", "default", NotEqual))
  }

  function BoxedModeRule(value: string): Rule {
    Rule(Check("faq_accordion_boxed_mode", value, Equal), Output("boxed_mode", "", NotEqual))
  }

  /** The rule table, in the order the plugin builds it. */
  function Table(): seq<Entry> {
    PortfolioTable() + FaqTable()
  }

  function PortfolioTable(): seq<Entry> {
    [ Entry("column_spacing", Portfolio, PortfolioIsSingleColumn),
      Entry("equal_heights", Portfolio, PortfolioIsSingleColumn),
      Entry("grid_element_color", Portfolio, TextLayoutRule("boxed", NotEqual)),
      Entry("grid_box_color", Portfolio, TextLayoutRule("no_text", Equal)),
      Entry("grid_separator_style_type", Portfolio, TextLayoutRule("boxed", NotEqual)),
      Entry("grid_separator_color", Portfolio, TextLayoutRule("boxed", NotEqual)),
      Entry("portfolio_layout_padding", Portfolio, TextLayoutRule("unboxed", Equal))
    ] + ExcerptTable() +
    [ Entry("strip_html", Portfolio, ContentLengthRule("full_content", Equal)) ]
  }

  /** The two rules of the portfolio element's `excerpt_length` option. */
  function ExcerptTable(): seq<Entry> {
    [ Entry("excerpt_length", Portfolio, ContentLengthRule("full_content", Equal)),
      Entry("excerpt_length", Portfolio, ContentLengthRule("excerpt", NotEqual))
    ]
  }

  function FaqTable(): seq<Entry> {
    [ Entry("divider_line", Faq, BoxedModeRule("1")),
      Entry("border_size", Faq, BoxedModeRule("0")),
      Entry("border_color", Faq, BoxedModeRule("0")),
      Entry("background_color", Faq, BoxedModeRule("0")),
      Entry("hover_color", Faq, BoxedModeRule("0")),
      Entry("icon_box_color", Faq,
            Rule(Check("faq_accordion_icon_boxed", "0", Equal), Output("icon_boxed_mode", "", NotEqual)))
    ]
  }

  /** Whether a table line is for the pair. */
  predicate Matches(e: Entry, option: string, shortcode: string) {
    e.option == option && e.shortcode == shortcode
  }

  /** The rules `entries` lists for the pair, in order. */
  function Select(entries: seq<Entry>, option: string, shortcode: string): (r: seq<Rule>)
    ensures |r| <= |entries|
    ensures (forall i :: 0 <= i < |entries| ==> !Matches(entries[i], option, shortcode)) ==> r == []
    ensures forall j :: 0 <= j < |r| ==>
              exists i :: 0 <= i < |entries| && entries[i] == Entry(option, shortcode, r[j])
  {
    if entries == [] then []
    else
      var e := entries[0];
      var rest := Select(entries[1..], option, shortcode);
      assert forall i :: 1 <= i < |entries| ==> entries[i] == entries[1..][i - 1];
      if Matches(e, option, shortcode) then [e.rule] + rest else rest
  }

  /** The positions of the table lines for the pair, in increasing order. */
  function MatchingIndices(entries: seq<Entry>, option: string, shortcode: string): (r: seq<nat>)
    ensures forall t :: 0 <= t < |r| ==> r[t] < |entries| && Matches(entries[r[t]], option, shortcode)
    ensures forall t, u :: 0 <= t < u < |r| ==> r[t] < r[u]
    ensures forall j :: 0 <= j < |entries| && Matches(entries[j], option, shortcode) ==> j in r
  {
    if entries == [] then []
    else
      var n := |entries| - 1;
      var prefix := MatchingIndices(entries[..n], option, shortcode);
      assert forall j :: 0 <= j < n ==> entries[..n][j] == entries[j];
      if Matches(entries[n], option, shortcode) then prefix + [n] else prefix
  }

  /** Selecting from a concatenation selects from each part. */
  lemma {:induction false} SelectAppend(a: seq<Entry>, b: seq<Entry>, option: string, shortcode: string)
    ensures Select(a + b, option, shortcode) == Select(a, option, shortcode) + Select(b, option, shortcode)
  {
    if a != [] {
      assert (a + b)[0] == a[0];
      assert (a + b)[1..] == a[1..] + b;
      SelectAppend(a[1..], b, option, shortcode);
      var x := Select(a[1..], option, shortcode);
      var y := Select(b, option, shortcode);
      if Matches(a[0], option, shortcode) {
        assert [a[0].rule] + (x + y) == ([a[0].rule] + x) + y;
      }
    } else {
      assert a + b == b;
    }
  }

  /**
   Every table line for the pair contributes its rule, and only those: the
   t-th selected rule is the rule of the t-th line for the pair, in table
   order.
   */
  lemma {:induction false} SelectFollowsMatchingEntries(entries: seq<Entry>, option: string, shortcode: string)
    ensures |Select(entries, option, shortcode)| == |MatchingIndices(entries, option, shortcode)|
    ensures forall t :: 0 <= t < |Select(entries, option, shortcode)| ==>
              Select(entries, option, shortcode)[t]
              == entries[MatchingIndices(entries, option, shortcode)[t]].rule
  {
    if entries != [] {
      var n := |entries| - 1;
      var front := entries[..n];
      assert entries == front + [entries[n]];
      SelectAppend(front, [entries[n]], option, shortcode);
      SelectFollowsMatchingEntries(front, option, shortcode);
      var prefix := Select(front, option, shortcode);
      var idx := MatchingIndices(front, option, shortcode);
      forall t | 0 <= t < |prefix| ensures prefix[t] == entries[idx[t]].rule {
        assert front[idx[t]] == entries[idx[t]];
      }
      assert [entries[n]][1..] == [];
      if Matches(entries[n], option, shortcode) {
        assert Select([entries[n]], option, shortcode) == [entries[n].rule];
        assert Select(entries, option, shortcode) == prefix + [entries[n].rule];
        assert MatchingIndices(entries, option, shortcode) == idx + [n];
      } else {
        assert Select([entries[n]], option, shortcode) == [];
        assert Select(entries, option, shortcode) == prefix;
        assert MatchingIndices(entries, option, shortcode) == idx;
      }
    }
  }

  /** `$shortcode_option_map[ $option ][ $shortcode ]`, empty when not set. */
  function RulesFor(option: string, shortcode: string): seq<Rule> {
    Select(Table(), option, shortcode)
  }

  /** Whether a check passes: `==` compares the setting equal to the value, `!=` unequal. */
  predicate Passes(c: Check, settings: Settings) {
    match c.op
    case Equal => Setting(settings, c.setting) == c.value
    case NotEqual => Setting(settings, c.setting) != c.value
  }

  /** The outputs of the rules whose checks pass, in rule order. */
  function Triggered(rules: seq<Rule>, settings: Settings): (r: seq<Output>)
    ensures |r| <= |rules|
    ensures forall t :: 0 <= t < |r| ==>
              exists j :: 0 <= j < |rules| && Passes(rules[j].check, settings) && rules[j].output == r[t]
  {
    if rules == [] then []
    else
      var n := |rules| - 1;
      var prefix := Triggered(rules[..n], settings);
      assert forall j :: 0 <= j < n ==> rules[..n][j] == rules[j];
      if Passes(rules[n].check, settings) then prefix + [rules[n].output] else prefix
  }

  /** The positions of the rules whose checks pass, in increasing order. */
  function PassingIndices(rules: seq<Rule>, settings: Settings): (r: seq<nat>)
    ensures forall t :: 0 <= t < |r| ==> r[t] < |rules| && Passes(rules[r[t]].check, settings)
    ensures forall t, u :: 0 <= t < u < |r| ==> r[t] < r[u]
    ensures forall j :: 0 <= j < |rules| && Passes(rules[j].check, settings) ==> j in r
  {
    if rules == [] then []
    else
      var n := |rules| - 1;
      var prefix := PassingIndices(rules[..n], settings);
      assert forall j :: 0 <= j < n ==> rules[..n][j] == rules[j];
      if Passes(rules[n].check, settings) then prefix + [n] else prefix
  }

  /**
   A record is appended iff its rule's check passes, and the appended records
   keep the order of the rules: the t-th appended record is the output of the
   t-th passing rule.
   */
  lemma {:induction false} TriggeredFollowsPassingRules(rules: seq<Rule>, settings: Settings)
    ensures |Triggered(rules, settings)| == |PassingIndices(rules, settings)|
    ensures forall t :: 0 <= t < |Triggered(rules, settings)| ==>
              Triggered(rules, settings)[t] == rules[PassingIndices(rules, settings)[t]].output
  {
    if rules != [] {
      var n := |rules| - 1;
      var front := rules[..n];
      var prefix := Triggered(front, settings);
      var pidx := PassingIndices(front, settings);
      TriggeredFollowsPassingRules(front, settings);
      forall t | 0 <= t < |prefix| ensures prefix[t] == rules[pidx[t]].output {
        assert pidx[t] < n;
        assert front[pidx[t]] == rules[pidx[t]];
      }
      if Passes(rules[n].check, settings) {
        assert Triggered(rules, settings) == prefix + [rules[n].output];
        assert PassingIndices(rules, settings) == pidx + [n];
      } else {
        assert Triggered(rules, settings) == prefix;
        assert PassingIndices(rules, settings) == pidx;
      }
    }
  }

  /**
   The foreach loop of `set_builder_dependencies` over one pair's rules: the
   setting is read, compared with `==` or `!=`, and a passing rule's output is
   appended.
   */
  method AppendPassing(dependencies: seq<Output>, rules: seq<Rule>, settings: Settings)
    returns (r: seq<Output>)
    ensures |dependencies| <= |r| && r[..|dependencies|] == dependencies
    ensures r == dependencies + Triggered(rules, settings)
  {
    r := dependencies;
    var i := 0;
    while i < |rules|
      invariant 0 <= i <= |rules|
      invariant r == dependencies + Triggered(rules[..i], settings)
    {
      var check := rules[i].check;
      var value := Setting(settings, check.setting);
      var pass := false;
      if check.op == Equal {
        pass := value == check.value;
      }
      if check.op == NotEqual {
        pass := value != check.value;
      }
      if pass {
        r := r + [rules[i].output];
      }
      assert rules[..i + 1][..i] == rules[..i];
      i := i + 1;
    }
    assert rules[..|rules|] == rules;
  }

  /**
   `set_builder_dependencies( $dependencies, $shortcode, $option )`, with the
   settings object as a parameter. The incoming list is never changed, only
   extended; a pair without rules leaves it as it is.
   */
  method SetBuilderDependencies(dependencies: seq<Output>, shortcode: string, option: string,
                                settings: Settings)
    returns (r: seq<Output>)
    ensures |dependencies| <= |r| && r[..|dependencies|] == dependencies
    ensures (forall e :: e in Table() ==> e.option != option || e.shortcode != shortcode) ==>
              r == dependencies
    ensures r == dependencies + Triggered(RulesFor(option, shortcode), settings)
  {
    var rules := RulesFor(option, shortcode);
    r := AppendPassing(dependencies, rules, settings);
  }

  /**
   `excerpt_length` of the portfolio element has two rules on the content
   length setting: "full_content" passes both, "excerpt" passes neither, and
   any other value passes only the `!=` rule.
   */
  lemma ExcerptLengthDependencies(settings: Settings)
    ensures var cl := Output("content_length", "default", NotEqual);
            var v := Setting(settings, "portfolio_content_length");
            Triggered(RulesFor("excerpt_length", Portfolio), settings)
            == if v == "full_content" then [cl, cl] else if v == "excerpt" then [] else [cl]
  {
    ExcerptRules();
    var full := ContentLengthRule("full_content", Equal);
    var other := ContentLengthRule("excerpt", NotEqual);
    ExcerptTriggered(full, other, settings);
  }

  /** The outputs of two rules, spelled out. */
  lemma ExcerptTriggered(first: Rule, second: Rule, settings: Settings)
    ensures Triggered([first, second], settings)
            == (if Passes(first.check, settings) then [first.output] else [])
               + (if Passes(second.check, settings) then [second.output] else [])
  {
    var rules := [first, second];
    assert rules[..1] == [first];
    assert [first][..0] == [];
  }

  lemma ExcerptRules()
    ensures RulesFor("excerpt_length", Portfolio)
            == [ContentLengthRule("full_content", Equal), ContentLengthRule("excerpt", NotEqual)]
  {
    var option := "excerpt_length";
    var p := PortfolioTable();
    var head := p[..7];
    var strip := p[9..];
    assert p == head + ExcerptTable() + strip;
    assert Select(head, option, Portfolio) == [] by {
      // Each option name differs from "excerpt_length" in its length or its
      // first character; naming that difference spares the solver a
      // character-by-character comparison.
      forall i | 0 <= i < 7 ensures head[i].option != option {
        assert |head[i].option| != 14 || head[i].option[0] != 'e';
      }
    }
    assert Select(strip, option, Portfolio) == [] by {
      // "strip_html" is shorter than "excerpt_length".
      assert |strip[0].option| == 10;
    }
    assert Select(FaqTable(), option, Portfolio) == [] by {
      forall i | 0 <= i < |FaqTable()| ensures FaqTable()[i].shortcode != Portfolio {
        // The two shortcode names differ in length.
        assert |Faq| != |Portfolio|;
      }
    }
    SelectAppend(head + ExcerptTable(), strip, option, Portfolio);
    SelectAppend(head, ExcerptTable(), option, Portfolio);
    SelectAppend(p, FaqTable(), option, Portfolio);
  }
}

=== FILE: descriptions.dfy ===
/**
 `map_builder_descriptions`: the builder passes a two-level array
 `[ option ][ shortcode ] => description` and the plugin overwrites a fixed
 set of entries with the theme option each builder parameter mirrors.
 */
module BuilderDescriptions {
  import opened PhpArrays
  import opened Shortcodes

  /** The second key of a description, besides `theme-option`. */
  datatype Hint =
    | FieldType(name: string)        // 'type' => name
    | Reset                          // 'reset' => true
    | Subset(parts: seq<string>)     // 'subset' => parts
    | NoHint

  datatype Description = Description(themeOption: string, hint: Hint)

  type DescriptionMap = PhpArray<PhpArray<Description>>

  /** One `$shortcode_option_map[ option ][ shortcode ] = description` line. */
  datatype Write = Write(option: string, shortcode: string, description: Description)

  function Typed(option: string, name: string): Description {
    Description(option, FieldType(name))
  }

  function Resettable(option: string): Description {
    Description(option, Reset)
  }

  /** The writes, in the order the plugin makes them. */
  function Writes(): seq<Write> {
    [ Write("portfolio_layout_padding", Portfolio,
            Description("portfolio_layout_padding", Subset(["top", "right", "bottom", "left"]))),
      Write("picture_size", Portfolio, Typed("portfolio_featured_image_size", "select")),
      Write("text_layout", Portfolio, Typed("portfolio_text_layout", "select")),
      Write("portfolio_text_alignment", Portfolio, Typed("portfolio_text_alignment", "select")),
      Write("columns", Portfolio, Typed("portfolio_columns", "range")),
      Write("column_spacing", Portfolio, Typed("portfolio_column_spacing", "range")),
      Write("number_posts", Portfolio, Typed("portfolio_items", "range")),
      Write("pagination_type", Portfolio, Typed("portfolio_pagination_type", "select")),
      Write("content_length", Portfolio, Typed("portfolio_content_length", "select")),
      Write("excerpt_length", Portfolio, Typed("portfolio_excerpt_length", "range")),
      Write("portfolio_title_display", Portfolio, Typed("portfolio_title_display", "select")),
      Write("strip_html", Portfolio, Typed("portfolio_strip_html_excerpt", "yesno")),
      Write("grid_box_color", Portfolio, Resettable("timeline_bg_color")),
      Write("grid_element_color", Portfolio, Resettable("timeline_color")),
      Write("grid_separator_style_type", Portfolio, Typed("grid_separator_style_type", "select")),
      Write("grid_separator_color", Portfolio, Resettable("grid_separator_color")),
      Write("portfolio_masonry_grid_ratio", Portfolio, Typed("masonry_grid_ratio", "range")),
      Write("portfolio_masonry_width_double", Portfolio, Typed("masonry_width_double", "range")),
      Write("featured_image", Faq, Typed("faq_featured_image", "yesno")),
      Write("filters", Faq, Typed("faq_filters", "select")),
      Write("type", Faq, Typed("faq_accordion_type", "select")),
      Write("divider_line", Faq, Typed("faq_accordion_divider_line", "yesno")),
      Write("boxed_mode", Faq, Typed("faq_accordion_boxed_mode", "yesno")),
      Write("border_size", Faq, Typed("faq_accordion_border_size", "range")),
      Write("border_color", Faq, Resettable("faq_accordian_border_color")),
      Write("background_color", Faq, Resettable("faq_accordian_background_color")),
      Write("hover_color", Faq, Resettable("faq_accordian_hover_color")),
      Write("title_font_size", Faq, Description("faq_accordion_title_font_size", NoHint)),
      Write("icon_size", Faq, Typed("faq_accordion_icon_size", "range")),
      Write("icon_color", Faq, Resettable("faq_accordian_icon_color")),
      Write("icon_boxed_mode", Faq, Typed("faq_accordion_icon_boxed", "yesno")),
      Write("icon_box_color", Faq, Resettable("faq_accordian_inactive_color")),
      Write("icon_alignment", Faq, Typed("faq_accordion_icon_align", "select")),
      Write("toggle_hover_accent_color", Faq, Resettable("faq_accordian_active_color"))
    ]
  }

  /** `$m[ option ][ shortcode ]`, when both levels are set. */
  function Lookup(m: DescriptionMap, option: string, shortcode: string): Option<Description> {
    match Get(m, StrKey(option))
    case None => None
    case Some(inner) => Get(inner, StrKey(shortcode))
  }

  /**
   `$m[ option ][ shortcode ] = d`: PHP creates the inner array when the option
   is not set yet, and either level is overwritten in place when present.
   */
  function SetNested(m: DescriptionMap, option: string, shortcode: string, d: Description)
    : (r: DescriptionMap)
    ensures Lookup(r, option, shortcode) == Some(d)
    ensures forall o, s :: (o != option || s != shortcode) ==> Lookup(r, o, s) == Lookup(m, o, s)
    ensures KeySet(r) == KeySet(m) + {StrKey(option)}
    ensures |m| <= |r| && forall i :: 0 <= i < |m| ==> r[i].0 == m[i].0
    ensures UniqueKeys(m) ==> UniqueKeys(r)
  {
    var inner := Get(m, StrKey(option)).GetOr([]);
    Assign(m, StrKey(option), Assign(inner, StrKey(shortcode), d))
  }

  function ApplyWrites(m: DescriptionMap, writes: seq<Write>): DescriptionMap
    decreases |writes|
  {
    if writes == [] then m
    else
      var w := writes[0];
      ApplyWrites(SetNested(m, w.option, w.shortcode, w.description), writes[1..])
  }

  /** `map_builder_descriptions( $shortcode_option_map )`. */
  function MapBuilderDescriptions(m: DescriptionMap): DescriptionMap {
    ApplyWrites(m, Writes())
  }

  /** The description the last write for the pair stores, if any write names it. */
  function LastWrite(writes: seq<Write>, option: string, shortcode: string): (r: Option<Description>)
    ensures r.None? <==> forall i :: 0 <= i < |writes| ==>
                           writes[i].option != option || writes[i].shortcode != shortcode
    ensures r.Some? ==> exists i :: 0 <= i < |writes| && writes[i] == Write(option, shortcode, r.value)
  {
    if writes == [] then None
    else
      assert forall i :: 1 <= i < |writes| ==> writes[i] == writes[1..][i - 1];
      match LastWrite(writes[1..], option, shortcode)
      case Some(d) => Some(d)
      case None =>
        if writes[0].option == option && writes[0].shortcode == shortcode
        then Some(writes[0].description) else None
  }

  /**
   After the writes, a pair some write names holds the description of the last
   such write, and every other pair holds what it held before.
   */
  lemma {:induction false} ApplyWritesLookup(m: DescriptionMap, writes: seq<Write>,
                                             option: string, shortcode: string)
    ensures LastWrite(writes, option, shortcode).Some? ==>
              Lookup(ApplyWrites(m, writes), option, shortcode) == LastWrite(writes, option, shortcode)
    ensures LastWrite(writes, option, shortcode).None? ==>
              Lookup(ApplyWrites(m, writes), option, shortcode) == Lookup(m, option, shortcode)
    decreases |writes|
  {
    if writes != [] {
      var w := writes[0];
      ApplyWritesLookup(SetNested(m, w.option, w.shortcode, w.description), writes[1..], option, shortcode);
    }
  }

  /** The writes never move or drop an option the incoming map already had. */
  lemma {:induction false} ApplyWritesKeepsOptions(m: DescriptionMap, writes: seq<Write>)
    ensures |m| <= |ApplyWrites(m, writes)|
    ensures forall i :: 0 <= i < |m| ==> ApplyWrites(m, writes)[i].0 == m[i].0
    ensures UniqueKeys(m) ==> UniqueKeys(ApplyWrites(m, writes))
    decreases |writes|
  {
    if writes != [] {
      var w := writes[0];
      var m' := SetNested(m, w.option, w.shortcode, w.description);
      ApplyWritesKeepsOptions(m', writes[1..]);
    }
  }

  /** The options the writes name. */
  function WrittenOptions(writes: seq<Write>): set<Key>
    decreases |writes|
  {
    if writes == [] then {} else {StrKey(writes[0].option)} + WrittenOptions(writes[1..])
  }

  /** The writes add exactly the options they name and no others. */
  lemma {:induction false} ApplyWritesKeySet(m: DescriptionMap, writes: seq<Write>)
    ensures KeySet(ApplyWrites(m, writes)) == KeySet(m) + WrittenOptions(writes)
    decreases |writes|
  {
    if writes != [] {
      var w := writes[0];
      ApplyWritesKeySet(SetNested(m, w.option, w.shortcode, w.description), writes[1..]);
    }
  }

  /**
   `r` is `m` after `writes`: every pair some write names holds the last
   description written for it, and every other pair holds what it held in `m`.
   */
  ghost predicate LastWriteWins(r: DescriptionMap, m: DescriptionMap, writes: seq<Write>) {
    && (forall i :: 0 <= i < |writes| ==>
          Lookup(r, writes[i].option, writes[i].shortcode) == LastWrite(writes, writes[i].option, writes[i].shortcode))
    && (forall o, s :: LastWrite(writes, o, s).None? ==> Lookup(r, o, s) == Lookup(m, o, s))
  }

  /** `r` keeps the options of `m` in their positions, and their uniqueness. */
  predicate KeepsOptions(r: DescriptionMap, m: DescriptionMap) {
    && |m| <= |r|
    && (forall i :: 0 <= i < |m| ==> r[i].0 == m[i].0)
    && (UniqueKeys(m) ==> UniqueKeys(r))
  }

  lemma ApplyWritesSpec(m: DescriptionMap, writes: seq<Write>)
    ensures LastWriteWins(ApplyWrites(m, writes), m, writes)
    ensures KeepsOptions(ApplyWrites(m, writes), m)
  {
    forall o, s
      ensures LastWrite(writes, o, s).Some? ==>
                Lookup(ApplyWrites(m, writes), o, s) == LastWrite(writes, o, s)
      ensures LastWrite(writes, o, s).None? ==> Lookup(ApplyWrites(m, writes), o, s) == Lookup(m, o, s)
    {
      ApplyWritesLookup(m, writes, o, s);
    }
    ApplyWritesKeepsOptions(m, writes);
  }

  /**
   `map_builder_descriptions` sets every pair it names to the description the
   plugin writes for it, leaves every other pair of the incoming map as it
   was, and keeps the incoming options in their positions.
   */
  lemma MapBuilderDescriptionsSpec(m: DescriptionMap)
    ensures LastWriteWins(MapBuilderDescriptions(m), m, Writes())
    ensures KeepsOptions(MapBuilderDescriptions(m), m)
  {
    ApplyWritesSpec(m, Writes());
  }

  /**
   `map_builder_descriptions` creates no option beyond those its writes name:
   the incoming options plus the written ones, and nothing else.
   */
  lemma MapBuilderDescriptionsOptions(m: DescriptionMap)
    ensures KeySet(MapBuilderDescriptions(m)) == KeySet(m) + WrittenOptions(Writes())
  {
    ApplyWritesKeySet(m, Writes());
  }

  /** The last write for a pair in `a + b` is `b`'s when `b` has one, else `a`'s. */
  lemma {:induction false} LastWriteAppend(a: seq<Write>, b: seq<Write>, option: string, shortcode: string)
    ensures LastWrite(a + b, option, shortcode)
            == if LastWrite(b, option, shortcode).Some? then LastWrite(b, option, shortcode)
               else LastWrite(a, option, shortcode)
  {
    if a == [] {
      assert a + b == b;
    } else {
      assert (a + b)[0] == a[0];
      assert (a + b)[1..] == a[1..] + b;
      LastWriteAppend(a[1..], b, option, shortcode);
    }
  }

  /**
   The FAQ element's title font size mirrors its theme option with no second
   key, whatever the incoming map held for it.
   */
  lemma TitleFontSizeDescription(m: DescriptionMap)
    ensures Lookup(MapBuilderDescriptions(m), "title_font_size", Faq)
            == Some(Description("faq_accordion_title_font_size", NoHint))
  {
    var w := Writes();
    var d := Description("faq_accordion_title_font_size", NoHint);
    var head, tail := w[..28], w[28..];
    assert w == head + tail;
    assert head == w[..27] + [w[27]];
    assert w[27] == Write("title_font_size", Faq, d);
    assert LastWrite([w[27]], "title_font_size", Faq) == Some(d);
    LastWriteAppend(w[..27], [w[27]], "title_font_size", Faq);
    assert LastWrite(tail, "title_font_size", Faq).None? by {
      // Each later option differs from "title_font_size" in its length or its
      // first character, which the solver checks without comparing every
      // character.
      forall i | 0 <= i < |tail| ensures tail[i].option != "title_font_size" {
        assert |tail[i].option| != 15 || tail[i].option[0] != 't';
      }
    }
    LastWriteAppend(head, tail, "title_font_size", Faq);
    MapBuilderDescriptionsSpec(m);
    assert w[27].option == "title_font_size" && w[27].shortcode == Faq;
  }
}

=== FILE: filters.dfy ===
/**
 The plugin's filters over PHP arrays: the post types hidden from the events
 calendar (`fusion_core_exclude_post_type`), the thumbnail column of the admin
 post lists (`fusion_wp_list_add_column`) and the post types hidden from the
 link selector (`fusion_core_wp_link_query_args`).
 */
module PostTypeFilters {
  import opened PhpArrays

  const SlideType := "slide"
  const ElasticType := "themefusion_elastic"

  // ---------------------------------------------------------------------
  // fusion_core_exclude_post_type
  // ---------------------------------------------------------------------

  /** `unset` of the `slide` and `themefusion_elastic` keys. */
  function ExcludePostTypes<V>(allPostTypes: PhpArray<V>): (r: PhpArray<V>)
    ensures KeySet(r) == KeySet(allPostTypes) - {StrKey(SlideType), StrKey(ElasticType)}
    ensures forall i :: 0 <= i < |r| ==> r[i] in allPostTypes
    ensures forall i :: 0 <= i < |allPostTypes| && allPostTypes[i].0 !in {StrKey(SlideType), StrKey(ElasticType)}
              ==> allPostTypes[i] in r
    ensures UniqueKeys(allPostTypes) ==> UniqueKeys(r)
  {
    Unset(Unset(allPostTypes, StrKey(SlideType)), StrKey(ElasticType))
  }

  /** Both keys are removed in one filtering pass over the input. */
  lemma ExcludePostTypesFilters<V>(allPostTypes: PhpArray<V>)
    ensures ExcludePostTypes(allPostTypes) == Without(allPostTypes, {StrKey(SlideType), StrKey(ElasticType)})
  {
    WithoutWithout(allPostTypes, {StrKey(SlideType)}, {StrKey(ElasticType)});
    assert {StrKey(SlideType)} + {StrKey(ElasticType)} == {StrKey(SlideType), StrKey(ElasticType)};
  }

  /**
   The result is the input with exactly the two keys' entries taken out: each
   `unset` splices out the one entry holding its key, if any, and every other
   entry keeps its value and relative order.
   */
  lemma ExcludePostTypesSplices<V>(allPostTypes: PhpArray<V>)
    requires UniqueKeys(allPostTypes)
    ensures var a1 := Unset(allPostTypes, StrKey(SlideType));
            && (IndexOf(allPostTypes, StrKey(SlideType)).None? ==> a1 == allPostTypes)
            && (IndexOf(allPostTypes, StrKey(SlideType)).Some? ==>
                  var i := IndexOf(allPostTypes, StrKey(SlideType)).value;
                  a1 == allPostTypes[..i] + allPostTypes[i + 1..])
            && (IndexOf(a1, StrKey(ElasticType)).None? ==> ExcludePostTypes(allPostTypes) == a1)
            && (IndexOf(a1, StrKey(ElasticType)).Some? ==>
                  var j := IndexOf(a1, StrKey(ElasticType)).value;
                  ExcludePostTypes(allPostTypes) == a1[..j] + a1[j + 1..])
  {
    var a1 := Unset(allPostTypes, StrKey(SlideType));
    UnsetSplices(allPostTypes, StrKey(SlideType));
    UnsetSplices(a1, StrKey(ElasticType));
  }

  // ---------------------------------------------------------------------
  // fusion_wp_list_add_column
  // ---------------------------------------------------------------------

  const CheckboxColumn := StrKey("cb")
  const ThumbnailColumn := StrKey("tf_thumbnail")
  const ThumbnailHeader := Str("<span class=\"dashicons dashicons-format-image\"></span>")

  /**
   `fusion_wp_list_add_column`: without the theme the columns are returned
   unchanged; with it, `array_merge` of the checkbox and thumbnail columns
   with the existing ones.
   */
  function AddThumbnailColumn(avadaActive: bool, existing: PhpArray<Value>): (r: PhpArray<Value>)
    ensures !avadaActive ==> r == existing
  {
    if !avadaActive then existing
    else ArrayMerge([(CheckboxColumn, Index(existing, CheckboxColumn)), (ThumbnailColumn, ThumbnailHeader)],
                    existing)
  }

  /**
   With the theme active, the checkbox column comes first with its existing
   value (null when there was none), the thumbnail column second (keeping an
   existing value if one was already there), and then every other existing
   column in its original order.
   */
  lemma AddThumbnailColumnLayout(existing: PhpArray<Value>)
    requires UniqueKeys(existing) && StringKeyed(existing)
    ensures AddThumbnailColumn(true, existing)
            == [(CheckboxColumn, Index(existing, CheckboxColumn)),
                (ThumbnailColumn, Get(existing, ThumbnailColumn).GetOr(ThumbnailHeader))]
               + Without(existing, {CheckboxColumn, ThumbnailColumn})
  {
    var cb := Index(existing, CheckboxColumn);
    var cols := [(CheckboxColumn, cb), (ThumbnailColumn, ThumbnailHeader)];
    assert UniqueKeys(cols) && StringKeyed(cols);
    ArrayMergeStringKeys(cols, existing);
    KeySetPair(cols[0], cols[1]);
    var ov := Overlay(cols, existing);
    assert |ov| == 2;
    assert ov[0] == (CheckboxColumn, Get(existing, CheckboxColumn).GetOr(cb));
    assert ov[0] == (CheckboxColumn, cb);
    assert ov[1] == (ThumbnailColumn, Get(existing, ThumbnailColumn).GetOr(ThumbnailHeader));
    assert ov == [ov[0], ov[1]];
  }

  /** The new layout keeps every column and value the list had, and adds no key twice. */
  lemma AddThumbnailColumnKeepsColumns(existing: PhpArray<Value>)
    requires UniqueKeys(existing) && StringKeyed(existing)
    ensures var r := AddThumbnailColumn(true, existing);
            && KeySet(r) == KeySet(existing) + {CheckboxColumn, ThumbnailColumn}
            && UniqueKeys(r)
            && forall k :: k in KeySet(existing) ==> Get(r, k) == Get(existing, k)
  {
    AddThumbnailColumnLayout(existing);
    var r := AddThumbnailColumn(true, existing);
    var rest := Without(existing, {CheckboxColumn, ThumbnailColumn});
    var front := [(CheckboxColumn, Index(existing, CheckboxColumn)),
                  (ThumbnailColumn, Get(existing, ThumbnailColumn).GetOr(ThumbnailHeader))];
    assert r == front + rest;
    KeySetConcat(front, rest);
    KeySetPair(front[0], front[1]);
    assert front == [front[0], front[1]];
    UniqueKeysConcat(front, rest);
    forall k | k in KeySet(existing) ensures Get(r, k) == Get(existing, k) {
      ColumnKept(existing, front, rest, k);
    }
  }

  lemma ColumnKept(existing: PhpArray<Value>, front: PhpArray<Value>, rest: PhpArray<Value>, k: Key)
    requires UniqueKeys(existing) && UniqueKeys(front + rest) && k in KeySet(existing)
    requires front == [(CheckboxColumn, Index(existing, CheckboxColumn)),
                       (ThumbnailColumn, Get(existing, ThumbnailColumn).GetOr(ThumbnailHeader))]
    requires rest == Without(existing, {CheckboxColumn, ThumbnailColumn})
    ensures Get(front + rest, k) == Get(existing, k)
  {
    var r := front + rest;
    var v := Get(existing, k).value;
    assert (k, v) in existing;
    var i :| 0 <= i < |existing| && existing[i] == (k, v);
    if k == CheckboxColumn {
      assert r[0] == (k, v);
    } else if k == ThumbnailColumn {
      assert r[1] == (k, v);
    } else {
      assert (k, v) in rest;
      var j :| 0 <= j < |rest| && rest[j] == (k, v);
      assert r[j + 2] == (k, v);
    }
  }

  // ---------------------------------------------------------------------
  // fusion_core_wp_link_query_args
  // ---------------------------------------------------------------------

  /**
   `$key = array_search( v, $post_type, true ); if ( $key ) unset( $post_type[ $key ] );`
   A match at a falsy key (0) is left in place.
   */
  function RemoveIfTruthyKey(postTypes: PhpArray<string>, v: string): PhpArray<string> {
    match ArraySearch(postTypes, v)
    case Some(k) => if KeyTruthy(k) then Unset(postTypes, k) else postTypes
    case None => postTypes
  }

  /** `fusion_core_wp_link_query_args` on the query's `post_type` list, as written. */
  function LinkQueryPostTypes(postTypes: PhpArray<string>): PhpArray<string> {
    RemoveIfTruthyKey(RemoveIfTruthyKey(postTypes, SlideType), ElasticType)
  }

  /**
   One search-and-unset step removes exactly the first entry holding `v`, and
   only when its key is truthy; otherwise the array is unchanged.
   */
  lemma RemoveIfTruthyKeySpec(postTypes: PhpArray<string>, v: string)
    requires UniqueKeys(postTypes)
    ensures ValuePosition(postTypes, v).None? ==> RemoveIfTruthyKey(postTypes, v) == postTypes
    ensures ValuePosition(postTypes, v).Some? ==>
              var i := ValuePosition(postTypes, v).value;
              RemoveIfTruthyKey(postTypes, v)
              == if KeyTruthy(postTypes[i].0) then postTypes[..i] + postTypes[i + 1..] else postTypes
  {
    if ValuePosition(postTypes, v).Some? {
      var i := ValuePosition(postTypes, v).value;
      WithoutAt(postTypes, i);
    }
  }

  /**
   A `slide` entry found first at the falsy key 0 survives the filter, with its
   key and value unchanged.
   */
  lemma LinkQueryKeepsSlideAtKeyZero(postTypes: PhpArray<string>)
    requires UniqueKeys(postTypes)
    requires ValuePosition(postTypes, SlideType).Some?
    requires postTypes[ValuePosition(postTypes, SlideType).value].0 == IntKey(0)
    ensures (IntKey(0), SlideType) in LinkQueryPostTypes(postTypes)
  {
    var i := ValuePosition(postTypes, SlideType).value;
    assert RemoveIfTruthyKey(postTypes, SlideType) == postTypes;
    match ArraySearch(postTypes, ElasticType)
    case None =>
    case Some(k) =>
      var j :| 0 <= j < |postTypes| && postTypes[j] == (k, ElasticType);
      assert j != i;
      assert postTypes[i].0 !in {k};
  }

  /** A post-type list with `slide` at key 0, `[ 0 => 'slide', 1 => 'post' ]`, keeps `slide`. */
  lemma LinkQuerySlideAtZeroCounterexample()
    ensures (IntKey(0), SlideType) in LinkQueryPostTypes([(IntKey(0), SlideType), (IntKey(1), "post")])
  {
    LinkQueryKeepsSlideAtKeyZero([(IntKey(0), SlideType), (IntKey(1), "post")]);
  }

  /** The search-and-unset step as evidently intended: `false !== $key`. */
  function RemoveFound(postTypes: PhpArray<string>, v: string): PhpArray<string> {
    match ArraySearch(postTypes, v)
    case Some(k) => Unset(postTypes, k)
    case None => postTypes
  }

  /** `fusion_core_wp_link_query_args` as evidently intended. */
  function LinkQueryPostTypesIntended(postTypes: PhpArray<string>): PhpArray<string> {
    RemoveFound(RemoveFound(postTypes, SlideType), ElasticType)
  }

  /** Every value occurs at most once, as in the post-type lists WordPress builds. */
  predicate UniqueValues(a: PhpArray<string>) {
    forall i, j :: 0 <= i < j < |a| ==> a[i].1 != a[j].1
  }

  /**
   With the intended test, a list of distinct post types loses exactly its
   `slide` and `themefusion_elastic` entries, whatever their keys, and every
   other entry stays, in order.
   */
  lemma LinkQueryIntendedRemovesBoth(postTypes: PhpArray<string>)
    requires UniqueKeys(postTypes) && UniqueValues(postTypes)
    ensures var r := LinkQueryPostTypesIntended(postTypes);
            && (forall i :: 0 <= i < |r| ==> r[i].1 != SlideType && r[i].1 != ElasticType)
            && (forall i :: 0 <= i < |r| ==> r[i] in postTypes)
            && (forall i :: 0 <= i < |postTypes| && postTypes[i].1 != SlideType && postTypes[i].1 != ElasticType
                  ==> postTypes[i] in r)
  {
    var a1 := RemoveFound(postTypes, SlideType);
    RemoveFoundSpec(postTypes, SlideType);
    RemoveFoundSpec(a1, ElasticType);
  }

  /**
   The intended step on distinct values: the entry holding `v` is gone, every
   other entry stays, and distinct keys and values are kept.
   */
  lemma RemoveFoundSpec(postTypes: PhpArray<string>, v: string)
    requires UniqueKeys(postTypes) && UniqueValues(postTypes)
    ensures var r := RemoveFound(postTypes, v);
            && UniqueKeys(r) && UniqueValues(r)
            && (forall i :: 0 <= i < |r| ==> r[i].1 != v && r[i] in postTypes)
            && (forall i :: 0 <= i < |postTypes| && postTypes[i].1 != v ==> postTypes[i] in r)
  {
    RemoveFoundAt(postTypes, v);
    if ValuePosition(postTypes, v).Some? {
      UnsetDistinct(postTypes, ValuePosition(postTypes, v).value);
    }
  }

  /** The intended step unsets the key of the first entry holding `v`, if any. */
  lemma RemoveFoundAt(postTypes: PhpArray<string>, v: string)
    ensures ValuePosition(postTypes, v).None? ==> RemoveFound(postTypes, v) == postTypes
    ensures ValuePosition(postTypes, v).Some? ==>
              RemoveFound(postTypes, v) == Unset(postTypes, postTypes[ValuePosition(postTypes, v).value].0)
  {
  }

  /**
   Unsetting the key at position `i` of a list with distinct keys and values
   removes that entry's value and keeps every other entry.
   */
  lemma UnsetDistinct(postTypes: PhpArray<string>, i: nat)
    requires UniqueKeys(postTypes) && UniqueValues(postTypes) && i < |postTypes|
    ensures var r := Unset(postTypes, postTypes[i].0);
            && UniqueKeys(r) && UniqueValues(r)
            && (forall x :: 0 <= x < |r| ==> r[x].1 != postTypes[i].1 && r[x] in postTypes)
            && (forall x :: 0 <= x < |postTypes| && postTypes[x].1 != postTypes[i].1 ==> postTypes[x] in r)
  {
    var k := postTypes[i].0;
    var r := Unset(postTypes, k);
    forall x, y | 0 <= x < y < |r| ensures r[x].1 != r[y].1 {
      var p :| 0 <= p < |postTypes| && postTypes[p] == r[x];
      var q :| 0 <= q < |postTypes| && postTypes[q] == r[y];
      assert r[x].0 != r[y].0;
    }
    forall x | 0 <= x < |r| ensures r[x].1 != postTypes[i].1 {
      var p :| 0 <= p < |postTypes| && postTypes[p] == r[x];
      assert p != i;
    }
  }
}

=== FILE: options.dfy ===
/**
 The plugin's use of the WordPress options store: the version-upgrade check
 (`versions_compare`), the permalink-flush latch at the end of
 `register_post_types`, the elastic-slider gate of `register_post_types`, and
 the deactivation hook that re-arms the latch.

 The store is a map from option name to value; `get_option` of a missing name
 yields the given default, `update_option` stores, `delete_option` removes.
 Flushing the rewrite rules, resetting caches and enabling builder elements
 are calls into WordPress and other plugins; the model reports whether they
 happen.
 */
module PluginOptions {
  import opened PhpArrays
  import opened ThemeSettings

  type OptionStore = map<string, Value>

  /** FUSION_CORE_VERSION */
  const CoreVersion := "3.8.2"
  const VersionOption := "fusion_core_version"
  const FlushOption := "fusion_core_flush_permalinks"

  /** `get_option( name, default )`. */
  function GetOption(store: OptionStore, name: string, default: Value): (r: Value)
    ensures name in store ==> r == store[name]
    ensures name !in store ==> r == default
  {
    if name in store then store[name] else default
  }

  /** The store after `versions_compare`, and whether the activation steps ran. */
  datatype VersionCheck = VersionCheck(store: OptionStore, upgraded: bool)

  /**
   `versions_compare`: when the stored version is missing, falsy or different
   from the plugin's, delete the flush flag, run the activation steps and
   record the current version.
   */
  function VersionsCompare(store: OptionStore): (r: VersionCheck)
    ensures VersionOption in r.store && r.store[VersionOption] == Str(CoreVersion)
    ensures r.upgraded <==> GetOption(store, VersionOption, Bool(false)) != Str(CoreVersion)
    ensures r.upgraded ==> FlushOption !in r.store
    ensures !r.upgraded ==> r.store == store
    ensures forall name :: name != VersionOption && name != FlushOption ==>
              (name in r.store <==> name in store) &&
              (name in store ==> r.store[name] == store[name])
  {
    var dbVersion := GetOption(store, VersionOption, Bool(false));
    if !Truthy(dbVersion) || dbVersion != Str(CoreVersion) then
      var cleared := store - {FlushOption};
      VersionCheck(cleared[VersionOption := Str(CoreVersion)], true)
    else
      VersionCheck(store, false)
  }

  /** The store after the flush latch, and whether the rewrite rules were flushed. */
  datatype FlushStep = FlushStep(store: OptionStore, flushed: bool)

  /** Whether the flag option holds a truthy value. */
  predicate Latched(store: OptionStore) {
    Truthy(GetOption(store, FlushOption, Bool(false)))
  }

  /**
   The end of `register_post_types`: flush the rewrite rules when the flag is
   falsy or missing, then set it to true.
   */
  function FlushLatch(store: OptionStore): (r: FlushStep)
    ensures r.flushed <==> !Latched(store)
    ensures Latched(r.store)
    ensures forall name :: name != FlushOption ==>
              (name in r.store <==> name in store) &&
              (name in store ==> r.store[name] == store[name])
    ensures !r.flushed ==> r.store == store
  {
    var flag := GetOption(store, FlushOption, Bool(false));
    if !Truthy(flag) then FlushStep(store[FlushOption := Bool(true)], true)
    else FlushStep(store, false)
  }

  /** The option part of `fusion_core_deactivation`. */
  function Deactivate(store: OptionStore): (r: OptionStore)
    ensures !Latched(r)
    ensures forall name :: name != FlushOption ==>
              (name in r <==> name in store) && (name in store ==> r[name] == store[name])
  {
    store - {FlushOption}
  }

  /** A second pass of the latch never flushes and changes nothing. */
  lemma FlushLatchOnce(store: OptionStore)
    ensures var first := FlushLatch(store);
            var second := FlushLatch(first.store);
            !second.flushed && second.store == first.store
  {
  }

  /** Deactivation re-arms the latch. */
  lemma DeactivateRearms(store: OptionStore)
    ensures FlushLatch(Deactivate(store)).flushed
  {
  }

  /** An upgrade re-arms the latch. */
  lemma UpgradeRearms(store: OptionStore)
    requires VersionsCompare(store).upgraded
    ensures FlushLatch(VersionsCompare(store).store).flushed
  {
  }

  /** Once the version is current, `versions_compare` does nothing. */
  lemma VersionsCompareIdempotent(store: OptionStore)
    ensures var first := VersionsCompare(store);
            VersionsCompare(first.store) == VersionCheck(first.store, false)
  {
  }

  // ---------------------------------------------------------------------
  // register_post_types
  // ---------------------------------------------------------------------

  /** What `register_post_types` registers, and the latch's effect. */
  datatype Registration = Registration(postTypes: seq<string>, taxonomies: seq<string>,
                                       store: OptionStore, flushed: bool)

  /**
   `status_eslider` as `register_post_types` reads it: from the settings when
   the settings class exists, "1" otherwise.
   */
  function EsliderStatus(settingsClassExists: bool, settings: Settings): string {
    if settingsClassExists then Setting(settings, "status_eslider") else "1"
  }

  /**
   `register_post_types`: the portfolio and FAQ types and their taxonomies
   always, the elastic slider and its groups unless the settings class exists
   and switches it off with "0", then the flush latch.
   */
  function RegisterPostTypes(settingsClassExists: bool, settings: Settings, store: OptionStore)
    : (r: Registration)
    ensures |r.postTypes| >= 2 && r.postTypes[..2] == ["avada_portfolio", "avada_faq"]
    ensures |r.taxonomies| >= 4 &&
            r.taxonomies[..4] == ["portfolio_category", "portfolio_skills", "portfolio_tags", "faq_category"]
    ensures forall p :: p in r.postTypes ==> p in {"avada_portfolio", "avada_faq", "themefusion_elastic"}
    ensures forall t :: t in r.taxonomies ==>
              t in {"portfolio_category", "portfolio_skills", "portfolio_tags", "faq_category", "themefusion_es_groups"}
    ensures |r.postTypes| == (if "themefusion_elastic" in r.postTypes then 3 else 2)
    ensures |r.taxonomies| == |r.postTypes| + 2
    ensures "themefusion_elastic" in r.postTypes <==>
              !settingsClassExists || Setting(settings, "status_eslider") != "0"
    ensures "themefusion_es_groups" in r.taxonomies <==> "themefusion_elastic" in r.postTypes
    ensures r.flushed <==> !Latched(store)
    ensures r.store == FlushLatch(store).store
  {
    var elastic := !settingsClassExists || "0" != EsliderStatus(settingsClassExists, settings);
    var postTypes := ["avada_portfolio", "avada_faq"] + (if elastic then ["themefusion_elastic"] else []);
    var taxonomies := ["portfolio_category", "portfolio_skills", "portfolio_tags", "faq_category"]
                      + (if elastic then ["themefusion_es_groups"] else []);
    var latch := FlushLatch(store);
    Registration(postTypes, taxonomies, latch.store, latch.flushed)
  }

  // ---------------------------------------------------------------------
  // Consecutive requests
  // ---------------------------------------------------------------------

  /** The store and the number of flushes after some requests. */
  datatype Run = Run(store: OptionStore, flushes: nat)

  /**
   `n` consecutive requests, each running `versions_compare` (after the theme
   is set up) and then `register_post_types` (on init).
   */
  function Requests(settingsClassExists: bool, settings: Settings, store: OptionStore, n: nat): Run
    decreases n
  {
    if n == 0 then Run(store, 0)
    else
      var reg := RegisterPostTypes(settingsClassExists, settings, VersionsCompare(store).store);
      var rest := Requests(settingsClassExists, settings, reg.store, n - 1);
      Run(rest.store, rest.flushes + (if reg.flushed then 1 else 0))
  }

  /** The version is current and the latch is set. */
  predicate Settled(store: OptionStore) {
    GetOption(store, VersionOption, Bool(false)) == Str(CoreVersion) && Latched(store)
  }

  /** From a settled store, requests change nothing and never flush. */
  lemma {:induction false} SettledRequests(settingsClassExists: bool, settings: Settings,
                                           store: OptionStore, n: nat)
    requires Settled(store)
    ensures Requests(settingsClassExists, settings, store, n) == Run(store, 0)
    decreases n
  {
    if n > 0 {
      SettledRequests(settingsClassExists, settings, store, n - 1);
    }
  }

  /**
   Across any number of consecutive requests the rewrite rules are flushed at
   most once: exactly once when there is at least one request and the store
   starts with a stale version or an unset latch.
   */
  lemma {:induction false} FlushAtMostOnce(settingsClassExists: bool, settings: Settings,
                                           store: OptionStore, n: nat)
    ensures var run := Requests(settingsClassExists, settings, store, n);
            run.flushes == (if n > 0 && !Settled(store) then 1 else 0)
    ensures n > 0 ==> Settled(Requests(settingsClassExists, settings, store, n).store)
  {
    if n > 0 {
      var vc := VersionsCompare(store);
      var reg := RegisterPostTypes(settingsClassExists, settings, vc.store);
      assert Settled(reg.store);
      SettledRequests(settingsClassExists, settings, reg.store, n - 1);
    }
  }
}

=== FILE: php_arrays.dfy ===
/**
 PHP ordered arrays, modelled as sequences of key/value pairs.

 A PHP array remembers insertion order and maps each key at most once; keys are
 integers or strings. Reading a missing index yields null, assigning to an
 existing key overwrites it in place, assigning to a new key appends it, and
 `unset` deletes the entry without moving the others.
 */
module PhpArrays {

  /** The result of a lookup that may miss. */
  datatype Option<+T> = None | Some(value: T) {
    /** The value, or `default` when the lookup missed. */
    function GetOr(default: T): T {
      match this
      case Some(v) => v
      case None => default
    }
  }

  /** A PHP array key. */
  datatype Key = IntKey(i: int) | StrKey(s: string)

  /**
   PHP's conversion of a key to a boolean, as done by `if ( $key )`: the integer
   zero and the strings "" and "0" are false. (PHP itself stores the string key
   "0" as the integer key 0.)
   */
  predicate KeyTruthy(k: Key) {
    match k
    case IntKey(i) => i != 0
    case StrKey(s) => s != "" && s != "0"
  }

  /** The scalar PHP values the model needs. */
  datatype Value = Null | Bool(b: bool) | Int(i: int) | Str(s: string)

  /** PHP's conversion of a scalar to a boolean. */
  predicate Truthy(v: Value) {
    match v
    case Null => false
    case Bool(b) => b
    case Int(i) => i != 0
    case Str(s) => s != "" && s != "0"
  }

  type PhpArray<V> = seq<(Key, V)>

  /** The keys present in `a`. */
  function KeySet<V>(a: PhpArray<V>): set<Key> {
    set i | 0 <= i < |a| :: a[i].0
  }

  /** Every key occurs at most once, as in every array PHP builds. */
  predicate UniqueKeys<V>(a: PhpArray<V>) {
    forall i, j :: 0 <= i < j < |a| ==> a[i].0 != a[j].0
  }

  predicate StringKeyed<V>(a: PhpArray<V>) {
    forall i :: 0 <= i < |a| ==> a[i].0.StrKey?
  }

  /** Position of the first entry whose key is `k`. */
  function IndexOf<V>(a: PhpArray<V>, k: Key): (r: Option<nat>)
    ensures r.Some? ==> r.value < |a| && a[r.value].0 == k
    ensures r.Some? ==> forall j :: 0 <= j < r.value ==> a[j].0 != k
    ensures r.None? <==> k !in KeySet(a)
  {
    if a == [] then None
    else if a[0].0 == k then Some(0)
    else
      assert forall j :: 1 <= j < |a| ==> a[j].0 == a[1..][j - 1].0;
      match IndexOf(a[1..], k)
      case None => None
      case Some(i) => Some(i + 1)
  }

  /** `$a[$k]` when the key is set. */
  function Get<V>(a: PhpArray<V>, k: Key): (r: Option<V>)
    ensures r.Some? <==> k in KeySet(a)
    ensures r.Some? ==> (k, r.value) in a
    ensures UniqueKeys(a) ==> forall i :: 0 <= i < |a| && a[i].0 == k ==> r == Some(a[i].1)
  {
    match IndexOf(a, k)
    case None => None
    case Some(i) => Some(a[i].1)
  }

  /** `$a[$k]` on an array of scalars: null when the key is not set. */
  function Index(a: PhpArray<Value>, k: Key): (r: Value)
    ensures k !in KeySet(a) ==> r == Null
    ensures k in KeySet(a) ==> (k, r) in a
  {
    Get(a, k).GetOr(Null)
  }

  /** Position of the first entry whose value is `v`. */
  function ValuePosition<V(==)>(a: PhpArray<V>, v: V): (r: Option<nat>)
    ensures r.Some? ==> r.value < |a| && a[r.value].1 == v
    ensures r.Some? ==> forall j :: 0 <= j < r.value ==> a[j].1 != v
    ensures r.None? <==> forall j :: 0 <= j < |a| ==> a[j].1 != v
  {
    if a == [] then None
    else if a[0].1 == v then Some(0)
    else
      assert forall j :: 1 <= j < |a| ==> a[j].1 == a[1..][j - 1].1;
      match ValuePosition(a[1..], v)
      case None => None
      case Some(i) => Some(i + 1)
  }

  /** `array_search( $v, $a, true )`: the key of the first entry strictly equal to `v`. */
  function ArraySearch<V(==)>(a: PhpArray<V>, v: V): (r: Option<Key>)
    ensures r.None? <==> forall j :: 0 <= j < |a| ==> a[j].1 != v
    ensures r.Some? ==> exists j :: 0 <= j < |a| && a[j] == (r.value, v) && forall i :: 0 <= i < j ==> a[i].1 != v
  {
    match ValuePosition(a, v)
    case None => None
    case Some(i) => Some(a[i].0)
  }

  /** `a` without the entries whose key is in `ks`, the others kept in order. */
  function Without<V>(a: PhpArray<V>, ks: set<Key>): (r: PhpArray<V>)
    ensures forall i :: 0 <= i < |r| ==> r[i] in a && r[i].0 !in ks
    ensures forall i :: 0 <= i < |a| && a[i].0 !in ks ==> a[i] in r
    ensures KeySet(r) == KeySet(a) - ks
    ensures UniqueKeys(a) ==> UniqueKeys(r)
    ensures |r| <= |a|
  {
    if a == [] then []
    else
      var rest := Without(a[1..], ks);
      assert forall i :: 1 <= i < |a| ==> a[i] == a[1..][i - 1];
      assert KeySet(a) == {a[0].0} + KeySet(a[1..]);
      if a[0].0 in ks then rest
      else
        assert UniqueKeys(a) ==> a[0].0 !in KeySet(a[1..]);
        [a[0]] + rest
  }

  /** `unset( $a[$k] )`. */
  function Unset<V>(a: PhpArray<V>, k: Key): PhpArray<V> {
    Without(a, {k})
  }

  /** `$a[$k] = $v`: overwrite in place, or append a new entry. */
  function Assign<V>(a: PhpArray<V>, k: Key, v: V): (r: PhpArray<V>)
    ensures Get(r, k) == Some(v)
    ensures forall x :: x != k ==> Get(r, x) == Get(a, x)
    ensures KeySet(r) == KeySet(a) + {k}
    ensures |r| == if k in KeySet(a) then |a| else |a| + 1
    ensures forall i :: 0 <= i < |a| ==> r[i].0 == a[i].0
    ensures UniqueKeys(a) ==> UniqueKeys(r)
  {
    match IndexOf(a, k)
    case Some(i) =>
      var r := a[i := (k, v)];
      IndexOfKeysOnly(a, r);
      assert KeySet(r) == KeySet(a);
      r
    case None =>
      var r := a + [(k, v)];
      IndexOfAppend(a, (k, v));
      KeySetAppend(a, (k, v));
      r
  }

  /** The number of integer keys; in the array `array_merge` builds this is the next integer key. */
  function IntKeyCount<V>(a: PhpArray<V>): nat {
    if a == [] then 0 else (if a[0].0.IntKey? then 1 else 0) + IntKeyCount(a[1..])
  }

  /** One step of `array_merge`: integer keys are renumbered and appended, string keys assigned. */
  function MergeStep<V>(acc: PhpArray<V>, e: (Key, V)): PhpArray<V> {
    match e.0
    case IntKey(_) => acc + [(IntKey(IntKeyCount(acc)), e.1)]
    case StrKey(_) => Assign(acc, e.0, e.1)
  }

  function MergeInto<V>(acc: PhpArray<V>, src: PhpArray<V>): PhpArray<V>
    decreases |src|
  {
    if src == [] then acc else MergeInto(MergeStep(acc, src[0]), src[1..])
  }

  /** `array_merge( $a, $b )`. */
  function ArrayMerge<V>(a: PhpArray<V>, b: PhpArray<V>): PhpArray<V> {
    MergeInto(MergeInto([], a), b)
  }

  /** `a` with each value replaced by the value `b` holds for the same key, if any. */
  function Overlay<V>(a: PhpArray<V>, b: PhpArray<V>): PhpArray<V> {
    seq(|a|, i requires 0 <= i < |a| => (a[i].0, Get(b, a[i].0).GetOr(a[i].1)))
  }

  // ---------------------------------------------------------------------
  // Lemmas
  // ---------------------------------------------------------------------

  lemma KeySetCons<V>(a: PhpArray<V>)
    requires a != []
    ensures KeySet(a) == {a[0].0} + KeySet(a[1..])
  {
    assert forall i :: 1 <= i < |a| ==> a[i] == a[1..][i - 1];
  }

  lemma KeySetAppend<V>(a: PhpArray<V>, e: (Key, V))
    ensures KeySet(a + [e]) == KeySet(a) + {e.0}
  {
    assert (a + [e])[|a|] == e;
    assert forall i :: 0 <= i < |a| ==> (a + [e])[i] == a[i];
  }

  lemma KeySetConcat<V>(a: PhpArray<V>, b: PhpArray<V>)
    ensures KeySet(a + b) == KeySet(a) + KeySet(b)
  {
    assert forall i :: 0 <= i < |a| ==> (a + b)[i] == a[i];
    assert forall i :: 0 <= i < |b| ==> (a + b)[|a| + i] == b[i];
  }

  lemma UniqueKeysConcat<V>(a: PhpArray<V>, b: PhpArray<V>)
    requires UniqueKeys(a) && UniqueKeys(b) && KeySet(a) !! KeySet(b)
    ensures UniqueKeys(a + b)
  {
    forall i, j | 0 <= i < j < |a + b| ensures (a + b)[i].0 != (a + b)[j].0 {
      if i < |a| && j >= |a| {
        assert (a + b)[i].0 in KeySet(a);
        assert (a + b)[j] == b[j - |a|];
        assert (a + b)[j].0 in KeySet(b);
      }
    }
  }

  lemma KeySetPair<V>(e1: (Key, V), e2: (Key, V))
    ensures KeySet([e1, e2]) == {e1.0, e2.0}
  {
    var a := [e1, e2];
    assert a[0] == e1 && a[1] == e2;
  }

  /** IndexOf looks at keys only. */
  lemma {:induction false} IndexOfKeysOnly<V>(a: PhpArray<V>, b: PhpArray<V>)
    requires |a| == |b|
    requires forall i :: 0 <= i < |a| ==> a[i].0 == b[i].0
    ensures forall k :: IndexOf(a, k) == IndexOf(b, k)
  {
    if a != [] {
      IndexOfKeysOnly(a[1..], b[1..]);
    }
  }

  /** Appending an entry does not change where the other keys are found. */
  lemma {:induction false} IndexOfAppend<V>(a: PhpArray<V>, e: (Key, V))
    ensures forall k :: k != e.0 ==> IndexOf(a + [e], k) == IndexOf(a, k)
  {
    if a != [] {
      assert (a + [e])[1..] == a[1..] + [e];
      IndexOfAppend(a[1..], e);
    }
  }

  lemma GetCons<V>(e: (Key, V), rest: PhpArray<V>, k: Key)
    ensures Get([e] + rest, k) == if e.0 == k then Some(e.1) else Get(rest, k)
  {
    assert ([e] + rest)[1..] == rest;
  }

  /** Removing keys that do not occur changes nothing. */
  lemma {:induction false} WithoutAbsent<V>(a: PhpArray<V>, ks: set<Key>)
    requires KeySet(a) !! ks
    ensures Without(a, ks) == a
  {
    if a != [] {
      KeySetCons(a);
      WithoutAbsent(a[1..], ks);
    }
  }

  /** A key that does not occur can be added to the removed set freely. */
  lemma {:induction false} WithoutIgnores<V>(a: PhpArray<V>, ks: set<Key>, k: Key)
    requires k !in KeySet(a)
    ensures Without(a, ks + {k}) == Without(a, ks)
  {
    if a != [] {
      KeySetCons(a);
      WithoutIgnores(a[1..], ks, k);
    }
  }

  /** Removing two key sets one after the other removes their union. */
  lemma {:induction false} WithoutWithout<V>(a: PhpArray<V>, s1: set<Key>, s2: set<Key>)
    ensures Without(Without(a, s1), s2) == Without(a, s1 + s2)
  {
    if a != [] {
      WithoutWithout(a[1..], s1, s2);
      if a[0].0 !in s1 {
        assert ([a[0]] + Without(a[1..], s1))[1..] == Without(a[1..], s1);
      }
    }
  }

  /** Removing the key at position `i` of a unique-keyed array splices out that entry. */
  lemma {:induction false} WithoutAt<V>(a: PhpArray<V>, i: nat)
    requires UniqueKeys(a) && i < |a|
    ensures Without(a, {a[i].0}) == a[..i] + a[i + 1..]
  {
    var k := a[i].0;
    KeySetCons(a);
    if i == 0 {
      assert k !in KeySet(a[1..]);
      WithoutAbsent(a[1..], {k});
    } else {
      assert a[1..][i - 1].0 == k;
      WithoutAt(a[1..], i - 1);
      assert a[..i] == [a[0]] + a[1..][..i - 1];
      assert a[i + 1..] == a[1..][i..];
    }
  }

  /**
   `unset` deletes exactly the entry holding the key and leaves every other
   entry where it was; when the key is not set, the array is unchanged.
   */
  lemma UnsetSplices<V>(a: PhpArray<V>, k: Key)
    requires UniqueKeys(a)
    ensures IndexOf(a, k).None? ==> Unset(a, k) == a
    ensures IndexOf(a, k).Some? ==>
              var i := IndexOf(a, k).value; Unset(a, k) == a[..i] + a[i + 1..]
  {
    match IndexOf(a, k)
    case None =>
      WithoutAbsent(a, {k});
    case Some(i) =>
      WithoutAt(a, i);
  }

  /** Values of `[(k, v)] + rest` when `rest` lacks `k`. */
  lemma GetFront<V>(k: Key, v: V, rest: PhpArray<V>)
    ensures forall x :: Get([(k, v)] + rest, x) == if x == k then Some(v) else Get(rest, x)
  {
    forall x ensures Get([(k, v)] + rest, x) == if x == k then Some(v) else Get(rest, x) {
      GetCons((k, v), rest, x);
    }
  }

  lemma WithoutCons<V>(e: (Key, V), rest: PhpArray<V>, ks: set<Key>)
    ensures Without([e] + rest, ks) == (if e.0 in ks then [] else [e]) + Without(rest, ks)
  {
    assert ([e] + rest)[1..] == rest;
  }

  /** An `array_merge` step on a string key the accumulator already holds. */
  lemma MergeStepPresent<V>(acc: PhpArray<V>, k: Key, v: V, rest: PhpArray<V>)
    requires UniqueKeys(acc) && k !in KeySet(rest) && k in KeySet(acc)
    ensures Overlay(Assign(acc, k, v), rest) == Overlay(acc, [(k, v)] + rest)
  {
    var src := [(k, v)] + rest;
    var acc' := Assign(acc, k, v);
    GetFront(k, v, rest);
    forall j | 0 <= j < |acc| ensures Overlay(acc', rest)[j] == Overlay(acc, src)[j] {
      var x := acc[j].0;
      assert acc'[j].0 == x;
      assert Get(acc', x) == Some(acc'[j].1);
      assert Get(acc, x) == Some(acc[j].1);
    }
  }

  /** An `array_merge` step on a string key new to the accumulator. */
  lemma MergeStepAbsent<V>(acc: PhpArray<V>, k: Key, v: V, rest: PhpArray<V>)
    requires k !in KeySet(rest) && k !in KeySet(acc)
    ensures Overlay(Assign(acc, k, v), rest) == Overlay(acc, [(k, v)] + rest) + [(k, v)]
  {
    var src := [(k, v)] + rest;
    var acc' := Assign(acc, k, v);
    GetFront(k, v, rest);
    assert acc' == acc + [(k, v)];
    forall j | 0 <= j < |acc| ensures Overlay(acc', rest)[j] == Overlay(acc, src)[j] {
      assert acc[j].0 in KeySet(acc);
    }
  }

  /** One `array_merge` step on a string key `k` that the rest of the source lacks. */
  lemma MergeStepOverlay<V>(acc: PhpArray<V>, k: Key, v: V, rest: PhpArray<V>)
    requires UniqueKeys(acc) && k !in KeySet(rest)
    ensures Overlay(Assign(acc, k, v), rest) + Without(rest, KeySet(Assign(acc, k, v)))
            == Overlay(acc, [(k, v)] + rest) + Without([(k, v)] + rest, KeySet(acc))
  {
    if k in KeySet(acc) {
      MergeStepOverlayPresent(acc, k, v, rest);
    } else {
      MergeStepOverlayAbsent(acc, k, v, rest);
    }
  }

  lemma MergeStepOverlayPresent<V>(acc: PhpArray<V>, k: Key, v: V, rest: PhpArray<V>)
    requires UniqueKeys(acc) && k !in KeySet(rest) && k in KeySet(acc)
    ensures Overlay(Assign(acc, k, v), rest) + Without(rest, KeySet(Assign(acc, k, v)))
            == Overlay(acc, [(k, v)] + rest) + Without([(k, v)] + rest, KeySet(acc))
  {
    var ks := KeySet(acc);
    WithoutCons((k, v), rest, ks);
    MergeStepPresent(acc, k, v, rest);
    assert KeySet(Assign(acc, k, v)) == ks;
  }

  lemma MergeStepOverlayAbsent<V>(acc: PhpArray<V>, k: Key, v: V, rest: PhpArray<V>)
    requires k !in KeySet(rest) && k !in KeySet(acc)
    ensures Overlay(Assign(acc, k, v), rest) + Without(rest, KeySet(Assign(acc, k, v)))
            == Overlay(acc, [(k, v)] + rest) + Without([(k, v)] + rest, KeySet(acc))
  {
    var ks := KeySet(acc);
    var acc' := Assign(acc, k, v);
    var front := Overlay(acc, [(k, v)] + rest);
    var tail := Without(rest, ks);
    var e := (k, v);
    calc {
      Overlay(acc', rest) + Without(rest, KeySet(acc'));
    == { MergeStepAbsent(acc, k, v, rest); }
      (front + [e]) + Without(rest, KeySet(acc'));
    == { assert KeySet(acc') == ks + {k}; WithoutIgnores(rest, ks, k); }
      (front + [e]) + tail;
    ==
      front + ([e] + tail);
    == { WithoutCons(e, rest, ks); }
      front + Without([e] + rest, ks);
    }
  }

  /**
   `array_merge( $acc, $src )` on string keys: every entry of `acc` keeps its
   place and takes `src`'s value when `src` has the key, and the entries of
   `src` with new keys follow in their own order.
   */
  lemma {:induction false} MergeIntoStringKeys<V>(acc: PhpArray<V>, src: PhpArray<V>)
    requires UniqueKeys(acc) && UniqueKeys(src) && StringKeyed(src)
    ensures MergeInto(acc, src) == Overlay(acc, src) + Without(src, KeySet(acc))
    decreases |src|
  {
    if src == [] {
      assert Overlay(acc, src) == acc;
    } else {
      var k, v, rest := src[0].0, src[0].1, src[1..];
      assert src == [(k, v)] + rest;
      KeySetCons(src);
      assert UniqueKeys(rest) && StringKeyed(rest);
      assert MergeStep(acc, src[0]) == Assign(acc, k, v);
      MergeIntoStringKeys(Assign(acc, k, v), rest);
      MergeStepOverlay(acc, k, v, rest);
    }
  }

  /** `array_merge` of two string-keyed arrays. */
  lemma ArrayMergeStringKeys<V>(a: PhpArray<V>, b: PhpArray<V>)
    requires UniqueKeys(a) && StringKeyed(a)
    requires UniqueKeys(b) && StringKeyed(b)
    ensures ArrayMerge(a, b) == Overlay(a, b) + Without(b, KeySet(a))
  {
    MergeIntoStringKeys([], a);
    assert Overlay([], a) == [];
    assert KeySet<V>([]) == {};
    WithoutAbsent(a, {});
    assert MergeInto([], a) == a;
    MergeIntoStringKeys(a, b);
  }
}

=== FILE: settings.dfy ===
/**
 Theme settings as the plugin reads them through `Fusion_Settings::get`.

 The settings object belongs to the theme and is not part of this model; it is
 passed in as a map from setting name to its value. A name the map lacks reads
 as the empty string: `get` then yields null, and PHP's loose comparison treats
 null like "" against the string values the plugin compares with.
 */
module ThemeSettings {

  type Settings = map<string, string>

  /** `$fusion_settings->get( name )`. */
  function Setting(settings: Settings, name: string): (r: string)
    ensures name in settings ==> r == settings[name]
    ensures name !in settings ==> r == ""
  {
    if name in settings then settings[name] else ""
  }
}

=== FILE: shortcodes.dfy ===
/** The builder elements the plugin contributes, by shortcode name. */
module Shortcodes {
  const Portfolio := "fusion_portfolio"
  const Faq := "fusion_faq"
}

=== FILE: templates.dfy ===
/**
 The `single_template` filter for portfolio posts: a template the theme
 provides wins, then the one shipped with the plugin, then whatever template
 WordPress had chosen.

 Template lookup and the filesystem belong to WordPress and the server; the
 model receives what `locate_template` returns for the portfolio file name
 ("" when the theme has none) and a predicate telling which paths exist.
 */
module Templates {
  import opened PhpArrays

  const PortfolioPostType := "avada_portfolio"
  const TemplateFile := "single-avada_portfolio.php"

  /** `FUSION_CORE_PATH . '/templates/' . $filename`. */
  function PluginTemplatePath(corePath: string): (r: string)
    ensures |r| == |corePath| + |"/templates/"| + |TemplateFile|
    ensures r[..|corePath|] == corePath && r[|r| - |TemplateFile|..] == TemplateFile
  {
    corePath + "/templates/" + TemplateFile
  }

  /**
   `portfolio_single_template( $single_post_template )` for the current post's
   type. The theme's template is used when `locate_template` returns a truthy
   string, which excludes "" and "0".
   */
  function PortfolioSingleTemplate(current: string, postType: string, located: string,
                                   fileExists: string -> bool, corePath: string): (r: string)
    ensures postType != PortfolioPostType ==> r == current
    ensures postType == PortfolioPostType && Truthy(Str(located)) ==> r == located
    ensures postType == PortfolioPostType && !Truthy(Str(located)) ==>
              r == (if fileExists(PluginTemplatePath(corePath)) then PluginTemplatePath(corePath) else current)
  {
    if PortfolioPostType != postType then current
    else if Truthy(Str(located)) then located
    else
      var plugin := PluginTemplatePath(corePath);
      if fileExists(plugin) then plugin else current
  }

  /**
   The chosen template is the incoming one, the theme's, or an existing plugin
   copy; it differs from the incoming one only for portfolio posts; and a
   template neither passed in nor located is the plugin's own file under
   its core path.
   */
  lemma TemplateCandidates(current: string, postType: string, located: string,
                           fileExists: string -> bool, corePath: string)
    ensures var r := PortfolioSingleTemplate(current, postType, located, fileExists, corePath);
            r == current || r == located || (r == PluginTemplatePath(corePath) && fileExists(r))
    ensures var r := PortfolioSingleTemplate(current, postType, located, fileExists, corePath);
            r != current ==> postType == PortfolioPostType
    ensures var r := PortfolioSingleTemplate(current, postType, located, fileExists, corePath);
            r != current && r != located ==>
              |r| > |corePath| + |TemplateFile| && r[..|corePath|] == corePath &&
              r[|r| - |TemplateFile|..] == TemplateFile
  {
  }

  /**
   Running the filter on its own result changes nothing, so a second hooked
   pass over the same post is harmless.
   */
  lemma TemplateIdempotent(current: string, postType: string, located: string,
                           fileExists: string -> bool, corePath: string)
    ensures var once := PortfolioSingleTemplate(current, postType, located, fileExists, corePath);
            PortfolioSingleTemplate(once, postType, located, fileExists, corePath) == once
  {
  }
}
